=== FILE: README.md ===
# Star Wars Heroes client: wallet session and arena combat

This Dafny project models the two state machines in the React client of an
on-chain turn-based game. A player connects a browser wallet on the Rinkeby
network, holds one character, and attacks a boss that all players share.

- **App session** (`app_session.dfy`, module `AppSession`). The App
  component's four state fields are `isLoading`, `rightNetwork`,
  `currentAccount` and `characterNFT`. The model covers the mount-time wallet
  probe `checkIfWalletIsConnected`, the explicit `connectWalletAction`, the
  character lookup `fetchNFTMetadata`, and the view selector `renderContent`.
- **Arena combat** (`arena.dfy`, module `ArenaCombat`). The Arena component
  tracks whether a contract is bound, the boss record, `attackState` (`""`,
  `"attacking"`, `"hit"`), `showToast`, and the registered `AttackComplete`
  handlers. The model covers contract binding, `fetchBoss`, the
  `onAttackComplete` merge, subscription and clean-up, `runAttackAction`
  split at its awaits, and the toast timer.
- **JavaScript values** (`js.dfy`, module `Js`). This module holds
  `null`/`undefined` as `Option`, and the outcome of an awaited call as
  `Reply` (resolved or thrown). Records are plain objects, modelled as maps
  from property names to values. `WithHp` is the spread update
  `{...prev, hp}`. Spreading `null` gives a record whose only property is
  `hp`. The model states that case instead of excluding it.

Each component is a class with its source fields. Its methods follow the
source's statements, including early returns, the `try`/`catch` fall-through
and `if (gameContract)` guards. Each method ensures that its new state
(`State()`) equals a pure transition function of the old state and the
inputs, for example `Probe`, `ResolveCharacter`, `Subscribe` and
`BeginAttack`. The properties the source promises are proved about those
functions, in their contracts and in lemmas that chain several steps.

Wallet and contract calls are inputs. The `Ethereum` value holds the answers
to `eth_chainId`, `eth_accounts` and `eth_requestAccounts`, or `None` when no
provider is injected. `NftRecord` holds what `checkIfUserHasNFT` returned.
`Reply<Obj>` is the transformed boss from `getBigBoss`. `Reply<()>` is the
outcome of `attackBoss()` and of `wait()`.

The code behaves as follows where one might expect otherwise:
- Without a wallet provider, the app shows the "connect to Rinkeby" warning,
  because `rightNetwork` stays false. There is no separate "no wallet" view
  (`NoProviderShowsWarning`).
- There is no `failed` attack state. An error resets `attackState` to `""`.
- `"hit"` stays after the toast expires. The attack state does not return to
  idle by itself.
- `runAttackAction` does not reject a second submission. Only the hidden
  attack button prevents one (`ButtonGatesResubmission`).
- Stale results are not suppressed by account. The contract is bound once
  at mount and is not rebound or unsubscribed when the account changes.
- A dead or missing record leaves a previously held character in place. It
  is not cleared.
- `connectWalletAction` with an empty account list sets the account to
  `undefined`.

## Model

| member | source | states |
|---|---|---|
| `AppSession.Probe` | packages/react/src/App.js:25-72 | Every path of the probe ends with `isLoading` false, including the missing provider, the wrong chain and a thrown error. `rightNetwork` is exactly "chain id is `0x4`" once the chain is known. An account is adopted only on Rinkeby, and then it is the first of a non-empty list. Otherwise the account is unchanged. The character is never touched. |
| `AppSession.App.CheckIfWalletIsConnected` | packages/react/src/App.js:25-72 | The imperative probe moves the state exactly as `Probe` does. `eth_accounts` is requested if and only if the provider reports Rinkeby. `eth_chainId` is requested if and only if a provider is present. |
| `AppSession.App.MountEffect` | packages/react/src/App.js:74-80 | The mount effect raises the loading flag and runs the probe. The state ends as `Probe` of the raised state. |
| `AppSession.Connect` | packages/react/src/App.js:132-156 | Only the account changes. It becomes the first account the prompt returned, or `undefined` for an empty answer. A missing provider or a refused prompt changes nothing. |
| `AppSession.App.ConnectWalletAction` | packages/react/src/App.js:132-156 | The method moves the state as `Connect` does. The wallet is prompted if and only if a provider is present. |
| `AppSession.ResolveCharacter` | packages/react/src/App.js:85-127 | Nothing changes unless the account is truthy and the lookup resolves. The character changes only to a named record whose hp is above zero. A dead or nameless record leaves the old character in place. A resolved lookup clears the loading flag. |
| `AppSession.App.FetchNftMetadataEffect` | packages/react/src/App.js:85-127 | The effect moves the state as `ResolveCharacter` does. `checkIfUserHasNFT` is called if and only if the account is truthy. |
| `AppSession.MergeCharacterHp` | packages/react/src/Components/Arena/index.js:82-84 | The character's hp becomes the event value. Every other character property and every other session field is unchanged. |
| `AppSession.App.UpdateCharacterHp` | packages/react/src/Components/Arena/index.js:82-84 | The functional `setCharacterNFT` update moves the state as `MergeCharacterHp` does. |
| `AppSession.App.SetCharacterNft` | packages/react/src/App.js:189-196 | The setter given to character selection and the Arena replaces the character and nothing else. |
| `AppSession.App.constructor` | packages/react/src/App.js:17-20 | The initial state: not loading, wrong network, no account, no character. |
| `AppSession.RenderContent` | packages/react/src/App.js:159-199 | The if/else chain never falls through to `undefined`. Some view is always chosen. |
| `AppSession.ViewPriority` | packages/react/src/App.js:163-198 | Exactly one view is chosen, in priority order: loading, then wrong network, then connect (no truthy account), then character selection (no character), then the arena. Each view is given by an if-and-only-if on the four fields. |
| `AppSession.WrongChainShowsWarning` | packages/react/src/App.js:39-47 | After a probe on a wrong chain the view is the network warning, whatever the state was before. The account is unchanged. |
| `AppSession.NoProviderShowsWarning` | packages/react/src/App.js:29-35 | A fresh app mounted without a provider shows the network warning. |
| `AppSession.SessionStepsKeepNoDeadCharacter` | packages/react/src/App.js:102-112 | The probe, the connect action and the character lookup never make a session hold a character whose hp is not above zero. |
| `AppSession.WrongNetworkFetchesNothing` | packages/react/src/App.js:163-186 | A truthy account is held only on the right network. A fresh probe establishes this, the connect action keeps it when run from the connect view (the only place its button is rendered), and the lookup and hp merge keep it. Hence on a wrong network or without a provider the character lookup changes nothing. |
| `AppSession.ArenaOnlyWhenReady` | packages/react/src/App.js:189-197 | The arena view, the only place `<Arena>` is mounted, requires the right network, a truthy account and no loading. The character lookup, the hp merge and the selection setter keep that view once it is shown. The Arena constructor demands this view of its App, so binding and `fetchBoss` never run on a wrong network or without an account. |
| `AppSession.MountThenLookup` | packages/react/src/App.js:74-127 | Mount on Rinkeby with an authorized account, then look up a named record. This reaches the arena when the record's hp is above zero and character selection otherwise. The probe clears the loading flag before the lookup finishes, so between the two steps character selection is shown even to a player who owns a live character. |
| `Js.WithHp` | packages/react/src/Components/Arena/index.js:78-84 | The spread update sets `hp` and keeps every other property's presence and value. On an absent record the result holds `hp` alone. |
| `Js.WithHpLastWins` | packages/react/src/Components/Arena/index.js:78-80 | A second hp update absorbs the first. Delivering one event twice gives the same record as delivering it once. |
| `Js.HpUpdatesKeepOnlyTheLast` | packages/react/src/Components/Arena/index.js:69-85 | Any non-empty run of hp updates equals the single update with the last value. |
| `ArenaCombat.RemoveFirstKeepsOrder` | packages/react/src/Components/Arena/index.js:95-99 | The registration that `off` drops is the first one of the handler. The registrations before and after it keep their order. |
| `ArenaCombat.RemoveFirst` | packages/react/src/Components/Arena/index.js:95-99 | Unregistering removes exactly one registration of the handler, as a multiset difference. It changes nothing when the handler is not registered. |
| `ArenaCombat.RemoveFirstKeepsRegistry` | packages/react/src/Components/Arena/index.js:95-99 | Unregistering adds no handler. A duplicate-free registry stays duplicate-free and loses the removed handler entirely. |
| `ArenaCombat.Bind` | packages/react/src/Components/Arena/index.js:22-38 | A contract is bound when a provider is present. Without a provider nothing changes. No other field is touched. |
| `ArenaCombat.Arena.BindContractEffect` | packages/react/src/Components/Arena/index.js:22-38 | The binding effect moves the state as `Bind` does. |
| `ArenaCombat.FetchBoss` | packages/react/src/Components/Arena/index.js:40-56 | With a bound contract, a successful fetch overwrites the whole boss with the fetched record. Without a contract, or when the fetch throws, nothing changes. Attack state, toast and listeners are untouched. |
| `ArenaCombat.Arena.FetchBossEffect` | packages/react/src/Components/Arena/index.js:60-64 | `fetchBoss`, from either effect, moves the state as `FetchBoss` does. |
| `ArenaCombat.Subscribe` | packages/react/src/Components/Arena/index.js:87-90 | A handler is registered if and only if a contract is bound. It is appended to the listeners and was not registered before. Registry validity is preserved. |
| `ArenaCombat.Arena.SubscribeEffect` | packages/react/src/Components/Arena/index.js:87-90 | The set-up moves the state and returns the registration exactly as `Subscribe` does. It keeps the registry valid. |
| `ArenaCombat.Cleanup` | packages/react/src/Components/Arena/index.js:95-99 | The clean-up removes one registration of its own handler and leaves the others. In a valid registry that handler is then no longer registered. Without a registration nothing changes. |
| `ArenaCombat.Arena.CleanupEffect` | packages/react/src/Components/Arena/index.js:95-99 | The clean-up moves the state as `Cleanup` does and keeps the registry valid. |
| `ArenaCombat.SubscribeCleanupRestoresRegistry` | packages/react/src/Components/Arena/index.js:87-99 | Set-up then clean-up removes the handler that the set-up registered. The listener multiset is then as it was before the effect. |
| `ArenaCombat.MountedArenaLifecycle` | packages/react/src/Components/Arena/index.js:22-100 | The effect run before binding registers nothing. The run after binding registers one handler. Its clean-up leaves none. |
| `ArenaCombat.MergeBoss` | packages/react/src/Components/Arena/index.js:78-80 | The boss's hp becomes the event value and every other boss property is kept. Contract, attack state, toast and listeners are unchanged. |
| `ArenaCombat.Arena.OnAttackComplete` | packages/react/src/Components/Arena/index.js:69-85 | The event handler applies `MergeBoss` to the Arena and `MergeCharacterHp` to the App. The event carries no sender, so it applies the same way whoever attacked. |
| `ArenaCombat.EventsKeepBossFields` | packages/react/src/Components/Arena/index.js:69-80 | After any run of events, a fetched boss keeps all of its properties except hp, which is the last event's value. |
| `ArenaCombat.EarlyEventThenFetch` | packages/react/src/Components/Arena/index.js:60-89 | An event that arrives before the first fetch leaves a boss that holds only hp. That boss already shows the attack button. The next fetch overwrites it entirely. |
| `ArenaCombat.BeginAttack` | packages/react/src/Components/Arena/index.js:103-107 | With a contract, the attack state becomes `"attacking"` and the button is hidden. Without one nothing changes. The boss, the toast and the listeners are never touched. |
| `ArenaCombat.Arena.RunAttackStart` | packages/react/src/Components/Arena/index.js:103-108 | The start step moves the state as `BeginAttack` does. The transaction is submitted if and only if a contract is bound, whatever the attack state. |
| `ArenaCombat.ConfirmAttack` | packages/react/src/Components/Arena/index.js:108-115 | After confirmation the state is `"hit"` and the toast is shown. The button is back whenever a boss is loaded. |
| `ArenaCombat.Arena.RunAttackConfirmed` | packages/react/src/Components/Arena/index.js:109-115 | The confirmation step moves the state as `ConfirmAttack` does. |
| `ArenaCombat.FailAttack` | packages/react/src/Components/Arena/index.js:120-123 | An error resets the attack state to `""` and leaves the toast as it was. The button is back whenever a boss is loaded. |
| `ArenaCombat.Arena.RunAttackFailed` | packages/react/src/Components/Arena/index.js:120-123 | The catch step moves the state as `FailAttack` does. |
| `ArenaCombat.ExpireToast` | packages/react/src/Components/Arena/index.js:116-118 | Expiry hides the toast. The attack state and the button's visibility are unchanged. |
| `ArenaCombat.Arena.ToastTimerFired` | packages/react/src/Components/Arena/index.js:116-118 | The timer step moves the state as `ExpireToast` does. |
| `ArenaCombat.RunAttackAction` | packages/react/src/Components/Arena/index.js:103-124 | A whole attack with no contract changes nothing. Success ends in `"hit"` with the toast shown. An error in the submission or the wait ends in `""` with the toast untouched. The boss, the contract and the listeners never change. |
| `ArenaCombat.AttackButtonVisibility` | packages/react/src/Components/Arena/index.js:136-159 | The attack button is offered exactly when a boss is loaded and `attackState` is not `"attacking"`: with a boss it is there for `""` and `"hit"`, and without a boss it never is. |
| `ArenaCombat.ButtonGatesResubmission` | packages/react/src/Components/Arena/index.js:136-159 | The button is hidden while an attack is in flight and is back after either outcome. The toast expiring does not bring it back early. A second start is still accepted. |
| `ArenaCombat.DarthVaderBattle` | packages/react/src/Components/Arena/index.js:103-118 | Worked example. Boss at 10000 hp, attack confirmed, then `AttackComplete(9950, 200)` merged: the boss keeps its name and maximum and shows 9950. After the toast expires the state is still `"hit"` and the button is shown. The character at 200 hp is left unchanged and the arena is still shown. |
| `ArenaCombat.Arena.constructor` | packages/react/src/Components/Arena/index.js:13-19 | Mounted only when its App shows the arena view. The initial state: no contract, no boss, attack state `""`, toast hidden, no handlers. |

## Left out

- `window.ethereum`, `ethers.providers.Web3Provider`, `ethers.Contract` and every RPC call (`eth_chainId`, `eth_accounts`, `eth_requestAccounts`, `checkIfUserHasNFT`, `getBigBoss`, `attackBoss`, `wait`): these are wallet and network calls. Their results are method inputs, and a thrown call is `Rejected`.
- `transformCharacterData` and `CONTRACT_ADDRESS` live in `./constants`, which is not part of this model. The transformed record is an input (`NftRecord.transformed`, the fetched boss). The only thing read from it is a numeric `hp`.
- `AppSession.ResolveCharacter`: `transformedData.hp > 0` is modelled for numeric hp. JavaScript's coercion of a string hp in that comparison is not modelled, because the transform yields numbers.
- `BigNumber.toNumber()` and its overflow: event values arrive as plain integers.
- The 5000 ms `setTimeout` and overlapping timers from repeated attacks: expiry is the explicit step `ToastTimerFired`.
- React effect scheduling, re-render order and interleaving of async steps, including the second `fetchBoss` started by the subscription effect. Each async operation except `runAttackAction` is one step applied at its last await; the guards it reads before the await, such as the account check in `FetchNftMetadataEffect`, cannot change in between. The two `fetchBoss` copies are one method, `FetchBossEffect`.
- `ArenaCombat.Arena.OnAttackComplete`: the event handler is one call per registered listener. How ethers dispatches an event to several listeners is not modelled. `Js.WithHpLastWins` shows that a repeated delivery changes nothing further.
- The listener registry belongs to the ethers contract object. Only one contract is ever bound, so it is a field of `Arena`. `off` removes the first registration of the handler.
- `console.log`, JSX markup, CSS classes, images, the toast markup and the Twitter footer: these are presentation.
- `SelectCharacter` and `LoadingIndicator` are not part of this model. Only the `setCharacterNFT` injection is modelled (`SetCharacterNft`).
- `packages/hardhat/scripts/deploy.js` and `packages/hardhat/hardhat.config.js`: deployment scripting and build configuration, with no client logic.
- Stale-result suppression keyed by account, unsubscribe before rebind, and an automatic return to idle: the code does none of these, so the model does not either.

=== FILE: app_session.dfy ===
/** The App component: the wallet session behind the whole UI. Its state is
    four fields. The mount-time wallet probe, the explicit connect action and
    the character lookup change them step by step. `renderContent` chooses
    the one view shown for them. */
module AppSession {
  import opened Js

  /** Chain id of the Rinkeby test network, the only network the app accepts. */
  const RinkebyChainId: string := "0x4"

  /** The injected `window.ethereum` provider, reduced to the answers that its
      three requests give. */
  datatype Ethereum = Ethereum(
    chainId: Reply<string>,               // eth_chainId
    accounts: Reply<seq<string>>,         // eth_accounts: silent, no prompt
    requestAccounts: Reply<seq<string>>)  // eth_requestAccounts: prompts the user

  /** The provider requests the probe issues, in the order it issues them. */
  datatype Request = EthChainId | EthAccounts

  /** What `checkIfUserHasNFT` returned, as far as the lookup reads it: whether
      its `name` is truthy, and the record `transformCharacterData` makes of it. */
  datatype NftRecord = NftRecord(hasName: bool, transformed: Obj)

  /** A snapshot of the four state fields. */
  datatype Session = Session(
    isLoading: bool,
    rightNetwork: bool,
    currentAccount: Option<string>,
    characterNFT: Option<Obj>)

  /** The `useState` initial values. */
  const InitialSession := Session(false, false, None, None)

  /** The views `renderContent` can choose. */
  datatype View = Loading | WrongNetwork | ConnectWallet | SelectCharacter | ArenaScreen

  /** The provider is present and reports the Rinkeby chain. */
  predicate OnRinkeby(ethereum: Option<Ethereum>) {
    ethereum.Some? && ethereum.value.chainId == Resolved(RinkebyChainId)
  }

  /** `checkIfWalletIsConnected`. Every path ends with the loading flag
      cleared. `rightNetwork` becomes exactly "the chain is Rinkeby" once the
      chain id is known. An account is adopted only on Rinkeby, and only the
      first account of a non-empty list. */
  function Probe(s: Session, ethereum: Option<Ethereum>): (r: Session)
    ensures !r.isLoading
    ensures r.characterNFT == s.characterNFT
    ensures ethereum.None? ==> r == s.(isLoading := false)
    ensures ethereum.Some? && ethereum.value.chainId.Resolved? ==>
      r.rightNetwork == (ethereum.value.chainId.value == RinkebyChainId)
    ensures ethereum.None? || ethereum.value.chainId.Rejected? ==> r.rightNetwork == s.rightNetwork
    ensures !OnRinkeby(ethereum) ==> r.currentAccount == s.currentAccount
    ensures r.currentAccount != s.currentAccount ==>
      && OnRinkeby(ethereum) && r.rightNetwork
      && ethereum.value.accounts.Resolved? && ethereum.value.accounts.value != []
      && r.currentAccount == Some(ethereum.value.accounts.value[0])
    ensures OnRinkeby(ethereum) && ethereum.value.accounts.Resolved? && ethereum.value.accounts.value != [] ==>
      r.currentAccount == Some(ethereum.value.accounts.value[0])
  {
    match ethereum
    case None => s.(isLoading := false)
    case Some(eth) =>
      match eth.chainId
      case Rejected => s.(isLoading := false)
      case Resolved(chainId) =>
        var checked := s.(rightNetwork := chainId == RinkebyChainId);
        if chainId != RinkebyChainId then checked.(isLoading := false)
        else
          match eth.accounts
          case Rejected => checked.(isLoading := false)
          case Resolved(accounts) =>
            if |accounts| != 0 then checked.(currentAccount := Some(accounts[0]), isLoading := false)
            else checked.(isLoading := false)
  }

  /** `connectWalletAction`. Only the account changes. It becomes the first
      account the prompt returned. An empty answer makes it `undefined`, so a
      connected account is dropped. A missing provider or a refused prompt
      changes nothing. */
  function Connect(s: Session, ethereum: Option<Ethereum>): (r: Session)
    ensures r.isLoading == s.isLoading && r.rightNetwork == s.rightNetwork
    ensures r.characterNFT == s.characterNFT
    ensures ethereum.None? || ethereum.value.requestAccounts.Rejected? ==> r == s
    ensures ethereum.Some? && ethereum.value.requestAccounts.Resolved? ==>
      var accounts := ethereum.value.requestAccounts.value;
      (accounts != [] ==> r.currentAccount == Some(accounts[0])) &&
      (accounts == [] ==> r.currentAccount == None && !Truthy(r.currentAccount))
  {
    match ethereum
    case None => s
    case Some(eth) =>
      match eth.requestAccounts
      case Rejected => s
      case Resolved(accounts) =>
        s.(currentAccount := if |accounts| != 0 then Some(accounts[0]) else None)
  }

  /** The `fetchNFTMetadata` effect that follows a change of account. It runs
      only for a truthy account. It adopts the record only when the record has
      a name and an hp above zero. A dead or missing record leaves the
      character as it was and does not clear it. A rejected lookup stops
      before anything is set. */
  function ResolveCharacter(s: Session, nft: Reply<NftRecord>): (r: Session)
    ensures !Truthy(s.currentAccount) || nft.Rejected? ==> r == s
    ensures r.currentAccount == s.currentAccount && r.rightNetwork == s.rightNetwork
    ensures r.characterNFT != s.characterNFT ==>
      && r.characterNFT.Some? && HpAboveZero(r.characterNFT.value)
      && nft == Resolved(NftRecord(true, r.characterNFT.value))
    ensures Truthy(s.currentAccount) && nft.Resolved? ==> !r.isLoading
    ensures Truthy(s.currentAccount) && nft.Resolved? && nft.value.hasName && HpAboveZero(nft.value.transformed) ==>
      r.characterNFT == Some(nft.value.transformed)
  {
    if !Truthy(s.currentAccount) then s
    else
      match nft
      case Rejected => s
      case Resolved(txn) =>
        if txn.hasName && HpAboveZero(txn.transformed) then
          s.(characterNFT := Some(txn.transformed), isLoading := false)
        else s.(isLoading := false)
  }

  /** `setCharacterNFT(prev => ({...prev, hp}))`, as the Arena's event handler
      applies it. Only the character's hp changes. */
  function MergeCharacterHp(s: Session, hp: int): (r: Session)
    ensures r.characterNFT.Some? && r.characterNFT.value == WithHp(s.characterNFT, hp)
    ensures r.isLoading == s.isLoading && r.rightNetwork == s.rightNetwork
    ensures r.currentAccount == s.currentAccount
  {
    s.(characterNFT := Some(WithHp(s.characterNFT, hp)))
  }

  /** `renderContent`: an if/else chain that can fall off its end and return
      `undefined`. Its guards cover every state, so it never does. */
  function RenderContent(s: Session): (v: Option<View>)
    ensures v.Some?
  {
    if s.isLoading then Some(Loading)
    else if !s.rightNetwork then Some(WrongNetwork)
    else if !Truthy(s.currentAccount) then Some(ConnectWallet)
    else if Truthy(s.currentAccount) && s.characterNFT.None? then Some(SelectCharacter)
    else if Truthy(s.currentAccount) && s.characterNFT.Some? then Some(ArenaScreen)
    else None
  }

  /** The views in order of priority. Loading hides everything. Then a wrong
      network. Then a missing account, which shows the connect button. Then a
      missing character, which shows selection. Only a fully set-up session
      reaches the arena. */
  lemma ViewPriority(s: Session)
    ensures RenderContent(s) == Some(Loading) <==> s.isLoading
    ensures RenderContent(s) == Some(WrongNetwork) <==> !s.isLoading && !s.rightNetwork
    ensures RenderContent(s) == Some(ConnectWallet) <==>
      !s.isLoading && s.rightNetwork && !Truthy(s.currentAccount)
    ensures RenderContent(s) == Some(SelectCharacter) <==>
      !s.isLoading && s.rightNetwork && Truthy(s.currentAccount) && s.characterNFT.None?
    ensures RenderContent(s) == Some(ArenaScreen) <==>
      !s.isLoading && s.rightNetwork && Truthy(s.currentAccount) && s.characterNFT.Some?
  {
  }

  /** On a wrong chain the probe leaves the session on the network warning,
      whatever it held before. No account or character view is reachable. */
  lemma WrongChainShowsWarning(s: Session, ethereum: Option<Ethereum>)
    requires ethereum.Some? && ethereum.value.chainId.Resolved?
    requires ethereum.value.chainId.value != RinkebyChainId
    ensures RenderContent(Probe(s, ethereum)) == Some(WrongNetwork)
    ensures Probe(s, ethereum).currentAccount == s.currentAccount
  {
  }

  /** Without a provider, a freshly mounted app shows the network warning.
      The code has no separate "no wallet" view. */
  lemma NoProviderShowsWarning()
    ensures RenderContent(Probe(InitialSession.(isLoading := true), None)) == Some(WrongNetwork)
  {
  }

  /** No state holds a character that is known to be dead. */
  predicate NoDeadCharacter(s: Session) {
    s.characterNFT.None? || HpAboveZero(s.characterNFT.value)
  }

  /** The probe, the connect action and the character lookup never adopt a
      dead character. Only an attack event can lower the hp of the one held. */
  lemma SessionStepsKeepNoDeadCharacter(s: Session, ethereum: Option<Ethereum>, nft: Reply<NftRecord>)
    requires NoDeadCharacter(s)
    ensures NoDeadCharacter(Probe(s, ethereum))
    ensures NoDeadCharacter(Connect(s, ethereum))
    ensures NoDeadCharacter(ResolveCharacter(s, nft))
  {
  }

  /** A truthy account is held only on the right network. */
  predicate AccountOnRightNetwork(s: Session) {
    Truthy(s.currentAccount) ==> s.rightNetwork
  }

  /** A wrong network stops all character fetching. The connect button is
      rendered only on the right network, so the connect action cannot give
      a wrong-network session an account, and the lookup then never runs. */
  lemma WrongNetworkFetchesNothing(s: Session, ethereum: Option<Ethereum>, nft: Reply<NftRecord>, hp: int)
    ensures AccountOnRightNetwork(Probe(InitialSession.(isLoading := true), ethereum))
    ensures AccountOnRightNetwork(s) && RenderContent(s) == Some(ConnectWallet) ==>
      AccountOnRightNetwork(Connect(s, ethereum))
    ensures AccountOnRightNetwork(s) ==>
      AccountOnRightNetwork(ResolveCharacter(s, nft)) && AccountOnRightNetwork(MergeCharacterHp(s, hp))
    ensures !OnRinkeby(ethereum) ==>
      ResolveCharacter(Probe(InitialSession.(isLoading := true), ethereum), nft)
        == Probe(InitialSession.(isLoading := true), ethereum)
  {
  }

  /** The Arena is rendered only for a session on the right network with a
      truthy account, so binding the contract and fetching the boss never
      happen on a wrong network or without an account. The lookup, the hp
      merge and the selection setter all keep the arena view once shown. */
  lemma ArenaOnlyWhenReady(s: Session, nft: Reply<NftRecord>, hp: int, c: Obj)
    requires RenderContent(s) == Some(ArenaScreen)
    ensures s.rightNetwork && Truthy(s.currentAccount) && !s.isLoading
    ensures RenderContent(ResolveCharacter(s, nft)) == Some(ArenaScreen)
    ensures RenderContent(MergeCharacterHp(s, hp)) == Some(ArenaScreen)
    ensures RenderContent(s.(characterNFT := Some(c))) == Some(ArenaScreen)
  {
  }

  /** From mount to battle. A fresh app on Rinkeby, with an authorized
      account, whose lookup returns a named record, reaches the arena when the
      hp is above zero and character selection otherwise. The probe clears the
      loading flag before the lookup finishes, so in between, character
      selection is shown even to a player who owns a live character. */
  lemma MountThenLookup(ethereum: Option<Ethereum>, nft: Reply<NftRecord>)
    requires OnRinkeby(ethereum) && ethereum.value.accounts.Resolved?
    requires ethereum.value.accounts.value != [] && ethereum.value.accounts.value[0] != ""
    requires nft.Resolved? && nft.value.hasName
    ensures RenderContent(Probe(InitialSession.(isLoading := true), ethereum)) == Some(SelectCharacter)
    ensures var s := ResolveCharacter(Probe(InitialSession.(isLoading := true), ethereum), nft);
      RenderContent(s) == if HpAboveZero(nft.value.transformed) then Some(ArenaScreen) else Some(SelectCharacter)
  {
  }

  /** The App component's state, updated in place by its handlers. */
  class App {
    var isLoading: bool
    var rightNetwork: bool
    var currentAccount: Option<string>
    var characterNFT: Option<Obj>

    function State(): Session
      reads this
    {
      Session(isLoading, rightNetwork, currentAccount, characterNFT)
    }

    constructor ()
      ensures State() == InitialSession
    {
      isLoading, rightNetwork, currentAccount, characterNFT := false, false, None, None;
    }

    /** `checkIfWalletIsConnected`. `requests` lists the provider requests
        issued: `eth_accounts` is issued only once the chain is Rinkeby. */
    method CheckIfWalletIsConnected(ethereum: Option<Ethereum>) returns (requests: seq<Request>)
      modifies this
      ensures State() == Probe(old(State()), ethereum)
      ensures EthChainId in requests <==> ethereum.Some?
      ensures EthAccounts in requests <==> OnRinkeby(ethereum)
    {
      requests := [];
      if ethereum.None? {
        isLoading := false;
        return;
      }
      var eth := ethereum.value;
      label attempt: {
        requests := requests + [EthChainId];
        if eth.chainId.Rejected? {
          break attempt;
        }
        var chainId := eth.chainId.value;
        rightNetwork := chainId == RinkebyChainId;
        if chainId != RinkebyChainId {
          isLoading := false;
          return;
        }
        requests := requests + [EthAccounts];
        if eth.accounts.Rejected? {
          break attempt;
        }
        var accounts := eth.accounts.value;
        if |accounts| != 0 {
          currentAccount := Some(accounts[0]);
        }
      }
      isLoading := false;
    }

    /** The mount effect: raise the loading flag, then probe the wallet. */
    method MountEffect(ethereum: Option<Ethereum>) returns (requests: seq<Request>)
      modifies this
      ensures State() == Probe(old(State()).(isLoading := true), ethereum)
      ensures EthAccounts in requests <==> OnRinkeby(ethereum)
    {
      isLoading := true;
      requests := CheckIfWalletIsConnected(ethereum);
    }

    /** `connectWalletAction`. `prompted` tells whether the wallet was asked
        for access. */
    method ConnectWalletAction(ethereum: Option<Ethereum>) returns (prompted: bool)
      modifies this
      ensures State() == Connect(old(State()), ethereum)
      ensures prompted == ethereum.Some?
    {
      prompted := false;
      if ethereum.None? {
        return;
      }
      prompted := true;
      var reply := ethereum.value.requestAccounts;
      if reply.Rejected? {
        return;
      }
      var accounts := reply.value;
      currentAccount := if |accounts| != 0 then Some(accounts[0]) else None;
    }

    /** The effect keyed on `currentAccount`, running `fetchNFTMetadata`.
        `queried` tells whether `checkIfUserHasNFT` was called. The account
        is checked when the effect starts, before the lookup is awaited, and
        the record is set after it whatever the account is by then. The
        whole effect is one step, so the account cannot change in between. */
    method FetchNftMetadataEffect(nft: Reply<NftRecord>) returns (queried: bool)
      modifies this
      ensures State() == ResolveCharacter(old(State()), nft)
      ensures queried == Truthy(old(currentAccount))
    {
      queried := Truthy(currentAccount);
      if !queried {
        return;
      }
      if nft.Rejected? {
        return;
      }
      var txn := nft.value;
      if txn.hasName {
        var transformedData := txn.transformed;
        if HpAboveZero(transformedData) {
          characterNFT := Some(transformedData);
        }
      }
      isLoading := false;
    }

    /** `setCharacterNFT` as handed to character selection: it replaces the
        character outright. */
    method SetCharacterNft(character: Obj)
      modifies this
      ensures State() == old(State()).(characterNFT := Some(character))
    {
      characterNFT := Some(character);
    }

    /** `setCharacterNFT` with the hp updater, as the Arena's event handler
        calls it. */
    method UpdateCharacterHp(hp: int)
      modifies this
      ensures State() == MergeCharacterHp(old(State()), hp)
    {
      characterNFT := Some(WithHp(characterNFT, hp));
    }
  }
}

=== FILE: arena.dfy ===
/** The Arena component: the combat state for one player against the shared
    boss. It binds the game contract and fetches the boss. It subscribes to
    `AttackComplete` events and merges their hp values into the boss and the
    character. It drives an attack through its awaits and raises the hit
    toast. */
module ArenaCombat {
  import opened Js
  import AppSession

  /** The `attackState` string: `""`, `"attacking"` or `"hit"`. */
  datatype AttackState = Idle | Attacking | Hit

  /** The identity of one `onAttackComplete` closure. Each run of the
      subscription effect creates a new one. */
  type HandlerId = nat

  /** The payload of the contract's `AttackComplete` event, already converted
      to plain numbers. It does not say which client attacked. */
  datatype AttackComplete = AttackComplete(newBossHp: int, newPlayerHp: int)

  /** A snapshot of the Arena's state. `listeners` holds the `AttackComplete`
      handlers registered on the bound contract, in registration order.
      `nextHandler` is the identity of the next closure. */
  datatype Combat = Combat(
    hasGameContract: bool,
    boss: Option<Obj>,
    attackState: AttackState,
    showToast: bool,
    listeners: seq<HandlerId>,
    nextHandler: HandlerId)

  /** The `useState` initial values, before any handler was created. */
  const InitialCombat := Combat(false, None, Idle, false, [], 0)

  /** No handler is registered twice. */
  ghost predicate Distinct(s: seq<HandlerId>) {
    forall h :: multiset(s)[h] <= 1
  }

  /** The registry holds distinct handlers, all of them already created. */
  ghost predicate RegistryValid(c: Combat) {
    Distinct(c.listeners) && forall h :: h in c.listeners ==> h < c.nextHandler
  }

  /** The position of the first registration of `h`. */
  function FirstIndex(s: seq<HandlerId>, h: HandlerId): (i: nat)
    requires h in s
    ensures i < |s| && s[i] == h && h !in s[..i]
  {
    if s[0] == h then 0 else 1 + FirstIndex(s[1..], h)
  }

  /** `contract.off(event, handler)`: drop the first registration of
      `handler` and keep the others. */
  function RemoveFirst(s: seq<HandlerId>, h: HandlerId): (r: seq<HandlerId>)
    ensures multiset(r) == multiset(s) - multiset{h}
    ensures h !in s ==> r == s
  {
    if s == [] then []
    else
      assert s == [s[0]] + s[1..];
      if s[0] == h then s[1..] else [s[0]] + RemoveFirst(s[1..], h)
  }

  /** The registration `off` drops is the first one, and the others keep
      their order. */
  lemma {:induction false} RemoveFirstKeepsOrder(s: seq<HandlerId>, h: HandlerId)
    requires h in s
    decreases |s|
    ensures RemoveFirst(s, h) == s[..FirstIndex(s, h)] + s[FirstIndex(s, h) + 1..]
  {
    if s[0] != h {
      var rest := s[1..];
      var k := FirstIndex(rest, h);
      RemoveFirstKeepsOrder(rest, h);
      assert s[..k + 1] == [s[0]] + rest[..k];
      assert s[k + 2..] == rest[k + 1..];
    }
  }

  /** Registering a handler that is not yet registered keeps the registry
      free of duplicates. */
  lemma AppendFreshKeepsDistinct(s: seq<HandlerId>, newId: HandlerId)
    ensures Distinct(s) && newId !in s ==> Distinct(s + [newId])
  {
  }

  /** Unregistering keeps the registry free of duplicates and adds no
      handler. */
  lemma RemoveFirstKeepsRegistry(s: seq<HandlerId>, h: HandlerId)
    ensures forall x :: x in RemoveFirst(s, h) ==> x in s
    ensures Distinct(s) ==> Distinct(RemoveFirst(s, h)) && h !in RemoveFirst(s, h)
  {
    var r := RemoveFirst(s, h);
    forall x | x in r ensures x in s {
      assert x in multiset(r);
    }
  }

  /** The contract-binding effect. A contract is bound exactly when a
      provider is present. Nothing else changes. */
  function Bind(c: Combat, ethereumPresent: bool): (r: Combat)
    ensures ethereumPresent ==> r.hasGameContract
    ensures !ethereumPresent ==> r == c
    ensures r.boss == c.boss && r.attackState == c.attackState && r.showToast == c.showToast
    ensures r.listeners == c.listeners && r.nextHandler == c.nextHandler
  {
    if ethereumPresent then c.(hasGameContract := true) else c
  }

  /** `fetchBoss`, run only with a bound contract. A successful fetch replaces
      the whole boss with the transformed record, whatever was there before,
      even a record rebuilt from events. */
  function FetchBoss(c: Combat, bossReply: Reply<Obj>): (r: Combat)
    ensures c.hasGameContract && bossReply.Resolved? ==> r.boss == Some(bossReply.value)
    ensures !c.hasGameContract || bossReply.Rejected? ==> r == c
    ensures r.hasGameContract == c.hasGameContract && r.attackState == c.attackState
    ensures r.showToast == c.showToast && r.listeners == c.listeners && r.nextHandler == c.nextHandler
  {
    if c.hasGameContract && bossReply.Resolved? then c.(boss := Some(bossReply.value)) else c
  }

  /** The subscription effect's set-up, after it has started `fetchBoss`. With
      a bound contract it registers a new handler and returns it for the
      clean-up. Without one it registers nothing. */
  function Subscribe(c: Combat): (result: (Combat, Option<HandlerId>))
    ensures result.1.Some? <==> c.hasGameContract
    ensures result.1.None? ==> result.0 == c
    ensures result.1.Some? ==> result.0.listeners == c.listeners + [result.1.value]
    ensures RegistryValid(c) ==> RegistryValid(result.0)
    ensures RegistryValid(c) && result.1.Some? ==> result.1.value !in c.listeners
    ensures result.0.hasGameContract == c.hasGameContract && result.0.boss == c.boss
    ensures result.0.attackState == c.attackState && result.0.showToast == c.showToast
  {
    if c.hasGameContract then
      AppendFreshKeepsDistinct(c.listeners, c.nextHandler);
      (c.(listeners := c.listeners + [c.nextHandler], nextHandler := c.nextHandler + 1), Some(c.nextHandler))
    else (c, None)
  }

  /** The subscription effect's clean-up. It unregisters the handler that its
      own set-up registered, and no other. */
  function Cleanup(c: Combat, registered: Option<HandlerId>): (r: Combat)
    ensures registered.None? ==> r == c
    ensures registered.Some? ==> multiset(r.listeners) == multiset(c.listeners) - multiset{registered.value}
    ensures RegistryValid(c) ==> RegistryValid(r)
    ensures RegistryValid(c) && registered.Some? ==> registered.value !in r.listeners
    ensures r.hasGameContract == c.hasGameContract && r.boss == c.boss && r.nextHandler == c.nextHandler
    ensures r.attackState == c.attackState && r.showToast == c.showToast
  {
    if registered.Some? then
      RemoveFirstKeepsRegistry(c.listeners, registered.value);
      c.(listeners := RemoveFirst(c.listeners, registered.value)) else c
  }

  /** The boss half of `onAttackComplete`. It replaces only the boss's hp.
      An absent boss becomes a record holding nothing but hp. */
  function MergeBoss(c: Combat, newBossHp: int): (r: Combat)
    ensures r.boss.Some? && r.boss.value == WithHp(c.boss, newBossHp)
    ensures r.hasGameContract == c.hasGameContract && r.attackState == c.attackState
    ensures r.showToast == c.showToast && r.listeners == c.listeners && r.nextHandler == c.nextHandler
  {
    c.(boss := Some(WithHp(c.boss, newBossHp)))
  }

  /** The attack button is offered when a boss is loaded and no attack is
      in flight. While the button is hidden a second submission is not
      possible. */
  predicate AttackButtonShown(c: Combat) {
    c.boss.Some? && c.attackState != Attacking
  }

  /** Which `attackState` values show the button: with a boss loaded it is
      there for `""` and `"hit"` and replaced by the spinner for
      `"attacking"`. Without a boss neither is rendered. */
  lemma AttackButtonVisibility(c: Combat)
    ensures c.boss.None? ==> !AttackButtonShown(c)
    ensures c.boss.Some? ==> (AttackButtonShown(c) <==> c.attackState == Idle || c.attackState == Hit)
  {
  }

  /** `runAttackAction` up to its first await. With a bound contract the
      attack is marked in flight and the button disappears. There is no guard
      against an attack already in flight. Without a contract nothing
      happens. */
  function BeginAttack(c: Combat): (r: Combat)
    ensures c.hasGameContract ==> r.attackState == Attacking && !AttackButtonShown(r)
    ensures !c.hasGameContract ==> r == c
    ensures r.hasGameContract == c.hasGameContract && r.boss == c.boss && r.showToast == c.showToast
    ensures r.listeners == c.listeners && r.nextHandler == c.nextHandler
  {
    if c.hasGameContract then c.(attackState := Attacking) else c
  }

  /** `runAttackAction` after the transaction is final. The boss shows as
      hit, the toast is raised, and the button returns whenever a boss is
      loaded. */
  function ConfirmAttack(c: Combat): (r: Combat)
    ensures r.attackState == Hit && r.showToast
    ensures AttackButtonShown(r) <==> c.boss.Some?
    ensures r.hasGameContract == c.hasGameContract && r.boss == c.boss
    ensures r.listeners == c.listeners && r.nextHandler == c.nextHandler
  {
    c.(attackState := Hit, showToast := true)
  }

  /** The catch of `runAttackAction`. It is the same for a failed submission
      and a failed wait. The attack state goes back to `""`, so the button
      returns. The toast is left as it was. */
  function FailAttack(c: Combat): (r: Combat)
    ensures r.attackState == Idle && r.showToast == c.showToast
    ensures AttackButtonShown(r) <==> c.boss.Some?
    ensures r.hasGameContract == c.hasGameContract && r.boss == c.boss
    ensures r.listeners == c.listeners && r.nextHandler == c.nextHandler
  {
    c.(attackState := Idle)
  }

  /** The toast timer. It hides the toast and touches nothing else, so a
      `"hit"` attack state stays `"hit"`. */
  function ExpireToast(c: Combat): (r: Combat)
    ensures !r.showToast
    ensures r.attackState == c.attackState && AttackButtonShown(r) == AttackButtonShown(c)
    ensures r.hasGameContract == c.hasGameContract && r.boss == c.boss
    ensures r.listeners == c.listeners && r.nextHandler == c.nextHandler
  {
    c.(showToast := false)
  }

  /** A whole `runAttackAction` with no event arriving in between:
      `submitted` is the outcome of `attackBoss()` and `mined` that of
      `wait()`. A success ends in `"hit"` with the toast shown. Any error ends
      in `""` with the toast untouched. Without a contract nothing changes.
      An attack never changes the boss, the contract or the listeners. */
  function RunAttackAction(c: Combat, submitted: Reply<()>, mined: Reply<()>): (r: Combat)
    ensures !c.hasGameContract ==> r == c
    ensures c.hasGameContract && submitted.Resolved? && mined.Resolved? ==> r.attackState == Hit && r.showToast
    ensures c.hasGameContract && (submitted.Rejected? || mined.Rejected?) ==>
      r.attackState == Idle && r.showToast == c.showToast
    ensures r.hasGameContract == c.hasGameContract && r.boss == c.boss
    ensures r.listeners == c.listeners && r.nextHandler == c.nextHandler
  {
    if !c.hasGameContract then c
    else
      var attacking := BeginAttack(c);
      if submitted.Rejected? || mined.Rejected? then FailAttack(attacking) else ConfirmAttack(attacking)
  }

  /** Only the hidden button prevents a second submission. Starting an
      attack hides it. Settling the attack, either way, brings it back.
      Starting again while an attack is in flight is accepted, because
      `runAttackAction` has no guard of its own. */
  lemma ButtonGatesResubmission(c: Combat)
    requires c.hasGameContract && c.boss.Some?
    ensures !AttackButtonShown(BeginAttack(c))
    ensures AttackButtonShown(ConfirmAttack(BeginAttack(c)))
    ensures AttackButtonShown(FailAttack(BeginAttack(c)))
    ensures BeginAttack(BeginAttack(c)).attackState == Attacking
    ensures !AttackButtonShown(ExpireToast(BeginAttack(c)))
  {
  }

  /** Set-up followed by clean-up restores the registry. The handler the
      effect added is gone, and every other registration is as it was. */
  lemma SubscribeCleanupRestoresRegistry(c: Combat)
    requires RegistryValid(c)
    ensures var (subscribed, registered) := Subscribe(c);
      var cleaned := Cleanup(subscribed, registered);
      && (registered.Some? ==> registered.value in subscribed.listeners && registered.value !in cleaned.listeners)
      && multiset(cleaned.listeners) == multiset(c.listeners)
      && RegistryValid(cleaned)
  {
  }

  /** The effect runs of a mounted Arena. The first run, with no contract
      yet, registers nothing. The run after binding registers one handler.
      Its clean-up leaves no handler registered. */
  lemma MountedArenaLifecycle()
    ensures var (first, none) := Subscribe(InitialCombat);
      var bound := Bind(Cleanup(first, none), true);
      var (second, registered) := Subscribe(bound);
      && none.None? && first.listeners == []
      && registered.Some? && second.listeners == [registered.value]
      && Cleanup(second, registered).listeners == []
  {
  }

  /** A run of events merged into a loaded boss leaves every boss property
      but hp as fetched, and hp as the last event says. It does not matter
      which clients' attacks caused the events. */
  lemma EventsKeepBossFields(boss: Obj, events: seq<AttackComplete>)
    requires events != []
    ensures var hps := seq(|events|, i requires 0 <= i < |events| => events[i].newBossHp);
      var merged := ApplyHpUpdates(Some(boss), hps);
      && merged.Some? && HP in merged.value && merged.value[HP] == Num(events[|events| - 1].newBossHp)
      && merged.value.Keys == boss.Keys + {HP}
      && forall k :: k in boss && k != HP ==> merged.value[k] == boss[k]
  {
    var hps := seq(|events|, i requires 0 <= i < |events| => events[i].newBossHp);
    HpUpdatesKeepOnlyTheLast(Some(boss), hps);
  }

  /** Attack events that arrive before the first fetch leave an hp-only
      boss. That boss already shows the attack button. The next successful
      fetch overwrites it completely. */
  lemma EarlyEventThenFetch(c: Combat, e: AttackComplete, bossReply: Reply<Obj>)
    requires c.boss.None? && c.hasGameContract && c.attackState != Attacking
    requires bossReply.Resolved?
    ensures MergeBoss(c, e.newBossHp).boss == Some(map[HP := Num(e.newBossHp)])
    ensures AttackButtonShown(MergeBoss(c, e.newBossHp))
    ensures FetchBoss(MergeBoss(c, e.newBossHp), bossReply).boss == Some(bossReply.value)
  {
  }

  /** The example battle: Darth Vader at 10000 hp, one attack confirmed,
      then `AttackComplete(9950, 200)` merged, then the toast expiring. The
      boss keeps its name and maximum and shows 9950 hp. The attack state
      stays `"hit"`. Chewbacca, at 200 hp, took no damage: the same event
      leaves the character and the arena view as they were. */
  lemma DarthVaderBattle()
    ensures var vader := map["name" := Text("Darth Vader"), HP := Num(10000),
                             "maxHp" := Num(10000), "attackDamage" := Num(50)];
      var fetched := FetchBoss(Bind(InitialCombat, true), Resolved(vader));
      var event := AttackComplete(9950, 200);
      var after := ExpireToast(MergeBoss(ConfirmAttack(BeginAttack(fetched)), event.newBossHp));
      && after.boss == Some(vader[HP := Num(9950)])
      && after.boss.value["name"] == Text("Darth Vader")
      && after.boss.value["maxHp"] == Num(10000)
      && after.attackState == Hit && !after.showToast
      && AttackButtonShown(after)
    ensures var chewbacca := map["name" := Text("Chewbacca"), HP := Num(200),
                                 "maxHp" := Num(200), "attackDamage" := Num(50)];
      var player := AppSession.Session(false, true, Some("0xABC"), Some(chewbacca));
      var event := AttackComplete(9950, 200);
      && AppSession.MergeCharacterHp(player, event.newPlayerHp) == player
      && AppSession.RenderContent(AppSession.MergeCharacterHp(player, event.newPlayerHp)) == Some(AppSession.ArenaScreen)
  {
    var chewbacca := map["name" := Text("Chewbacca"), HP := Num(200),
                         "maxHp" := Num(200), "attackDamage" := Num(50)];
    assert WithHp(Some(chewbacca), 200) == chewbacca;
  }

  /** The Arena component's state, updated in place by its effects, its
      event handler and its attack action. `app` is the App whose
      `setCharacterNFT` the Arena was given. */
  class Arena {
    const app: AppSession.App
    var hasGameContract: bool
    var boss: Option<Obj>
    var attackState: AttackState
    var showToast: bool
    var listeners: seq<HandlerId>
    var nextHandler: HandlerId

    function State(): Combat
      reads this
    {
      Combat(hasGameContract, boss, attackState, showToast, listeners, nextHandler)
    }

    ghost predicate Valid()
      reads this
    {
      RegistryValid(State())
    }

    /** `<Arena>` is mounted only by the last branch of `renderContent`,
        so the App it is given already shows the arena view. */
    constructor (app: AppSession.App)
      requires AppSession.RenderContent(app.State()) == Some(AppSession.ArenaScreen)
      ensures Valid() && State() == InitialCombat && this.app == app
    {
      this.app := app;
      hasGameContract, boss, attackState, showToast := false, None, Idle, false;
      listeners, nextHandler := [], 0;
    }

    /** The binding effect. */
    method BindContractEffect(ethereumPresent: bool)
      requires Valid()
      modifies this
      ensures Valid() && State() == Bind(old(State()), ethereumPresent)
    {
      if ethereumPresent {
        hasGameContract := true;
      }
    }

    /** `fetchBoss`, as either effect starts it, completed with `bossReply`. */
    method FetchBossEffect(bossReply: Reply<Obj>)
      requires Valid()
      modifies this
      ensures Valid() && State() == FetchBoss(old(State()), bossReply)
    {
      if hasGameContract {
        if bossReply.Rejected? {
          return;
        }
        boss := Some(bossReply.value);
      }
    }

    /** The subscription effect's set-up: `gameContract.on('AttackComplete', ...)`. */
    method SubscribeEffect() returns (registered: Option<HandlerId>)
      requires Valid()
      modifies this
      ensures Valid() && (State(), registered) == Subscribe(old(State()))
    {
      registered := None;
      if hasGameContract {
        registered := Some(nextHandler);
        listeners := listeners + [nextHandler];
        nextHandler := nextHandler + 1;
      }
      assert (State(), registered) == Subscribe(old(State()));
    }

    /** The subscription effect's clean-up: `gameContract.off(...)` with the
        handler its own set-up registered. */
    method CleanupEffect(registered: Option<HandlerId>)
      requires Valid()
      modifies this
      ensures Valid() && State() == Cleanup(old(State()), registered)
    {
      if registered.Some? {
        listeners := RemoveFirst(listeners, registered.value);
      }
      assert State() == Cleanup(old(State()), registered);
    }

    /** `onAttackComplete`: the boss's hp and the character's hp are both
        replaced by the event's values. */
    method OnAttackComplete(event: AttackComplete)
      requires Valid()
      modifies this, app
      ensures Valid() && State() == MergeBoss(old(State()), event.newBossHp)
      ensures app.State() == AppSession.MergeCharacterHp(old(app.State()), event.newPlayerHp)
    {
      var bossHp := event.newBossHp;
      var playerHp := event.newPlayerHp;
      boss := Some(WithHp(boss, bossHp));
      app.UpdateCharacterHp(playerHp);
    }

    /** `runAttackAction` up to `attackBoss()`. `submitted` tells whether the
        transaction was sent. */
    method RunAttackStart() returns (submitted: bool)
      requires Valid()
      modifies this
      ensures Valid() && State() == BeginAttack(old(State()))
      ensures submitted == old(hasGameContract)
    {
      submitted := hasGameContract;
      if hasGameContract {
        attackState := Attacking;
      }
    }

    /** `runAttackAction` once `attackTxn.wait()` has resolved. */
    method RunAttackConfirmed()
      requires Valid()
      modifies this
      ensures Valid() && State() == ConfirmAttack(old(State()))
    {
      attackState := Hit;
      showToast := true;
    }

    /** `runAttackAction` when `attackBoss()` or `wait()` threw. */
    method RunAttackFailed()
      requires Valid()
      modifies this
      ensures Valid() && State() == FailAttack(old(State()))
    {
      attackState := Idle;
    }

    /** The five-second toast timer firing. */
    method ToastTimerFired()
      requires Valid()
      modifies this
      ensures Valid() && State() == ExpireToast(old(State()))
    {
      showToast := false;
    }
  }
}

=== FILE: js.dfy ===
/** JavaScript values as the App and Arena components see them: `null` and
    `undefined`, the outcome of an awaited call, and plain objects, which are
    maps from property names to values. */
module Js {

  /** `null` or `undefined` (None), or a value that is present (Some). */
  datatype Option<+T> = None | Some(value: T)

  /** The outcome of an awaited wallet or contract call. The call either
      resolves with a value or throws. The components only log what was
      thrown and never inspect it. */
  datatype Reply<+T> = Resolved(value: T) | Rejected

  /** A property value of a character or boss record. Ledger numbers reach
      the record already normalised to plain integers. */
  datatype Value = Num(n: int) | Text(s: string)

  /** A plain object: its own enumerable properties. */
  type Obj = map<string, Value>

  /** The one property that attack events rewrite. */
  const HP: string := "hp"

  /** JavaScript truthiness of a string that may be `null` or `undefined`. */
  predicate Truthy(s: Option<string>) {
    s.Some? && s.value != ""
  }

  /** The properties `{...o}` contributes. Spreading `null` contributes none. */
  function Spread(o: Option<Obj>): Obj {
    if o.Some? then o.value else map[]
  }

  /** `{...prev, hp: hp}`, the updater both components hand to their state
      setters. Only `hp` changes. Every other property keeps its value, and
      an absent `prev` yields a record whose only property is `hp`. */
  function WithHp(prev: Option<Obj>, hp: int): (r: Obj)
    ensures HP in r && r[HP] == Num(hp)
    ensures forall k :: k != HP ==> (k in r <==> k in Spread(prev))
    ensures forall k :: k in r && k != HP ==> r[k] == Spread(prev)[k]
    ensures prev.None? ==> r.Keys == {HP}
    ensures prev.Some? ==> r.Keys == prev.value.Keys + {HP}
  {
    Spread(prev)[HP := Num(hp)]
  }

  /** `record.hp > 0`. A record without a numeric hp is not above zero. */
  predicate HpAboveZero(o: Obj) {
    HP in o && o[HP].Num? && o[HP].n > 0
  }

  /** A later hp update absorbs an earlier one. This is also why delivering
      the same event twice leaves the same record as delivering it once. */
  lemma WithHpLastWins(prev: Option<Obj>, first: int, second: int)
    ensures WithHp(Some(WithHp(prev, first)), second) == WithHp(prev, second)
  {
  }

  /** The record after a run of hp updates, applied in order. */
  function ApplyHpUpdates(o: Option<Obj>, hps: seq<int>): Option<Obj>
    decreases |hps|
  {
    if hps == [] then o else ApplyHpUpdates(Some(WithHp(o, hps[0])), hps[1..])
  }

  /** However many events arrive, and whichever clients caused them, the
      record ends up equal to the one before them with only `hp` replaced by
      the last event's value. */
  lemma {:induction false} HpUpdatesKeepOnlyTheLast(o: Option<Obj>, hps: seq<int>)
    requires hps != []
    decreases |hps|
    ensures ApplyHpUpdates(o, hps) == Some(WithHp(o, hps[|hps| - 1]))
  {
    if |hps| > 1 {
      var next := Some(WithHp(o, hps[0]));
      HpUpdatesKeepOnlyTheLast(next, hps[1..]);
      WithHpLastWins(o, hps[0], hps[|hps| - 1]);
    }
  }
}
